=== FILE: README.md ===
# Chat session and conversation store: a Dafny model

This project models the core of a chat backend that connects a Chainlit UI to a
SQL conversation store and to OpenAI-compatible model providers. It covers four
source files:

- **Repository** (`src/db/crud.py`, module `Crud`). The `conversations` and
  `messages` tables live in a `Store` class. The class keeps autoincrement
  counters and an invariant: conversation ids and message ids are fresh and
  unique, and every message belongs
  to an existing conversation. The class has these operations:
  - `create_conversation`, whose title defaults to "Nueva Conversación";
  - `add_message`;
  - the history query: filter by conversation, then order by ascending
    `created_at`, which is `Crud.History` on top of the stable sort in `Sorting`;
  - the two writes the thread adapter issues: the title assignment and the
    delete.
- **Thread adapter** (`src/db/chainlit_data_layer.py`, module `DataLayer`).
  - `get_thread`, `list_threads`, `update_thread`, `delete_thread` and
    `get_thread_author` work over a `Store`.
  - Each query is a filter, a sort and a limit over sequences. The result lists
    are built by loops, as in the source.
  - `int(thread_id)` on a non-numeric id raises `ValueError` in the source. The
    model returns it as an explicit `Failure(ValueError(..))`.
  - `str(id)` and `int(..)` are the `Text` module. The model proves
    `int(str(n)) == n`, which is why the adapter's thread ids and user ids
    resolve back to their rows.
- **Provider gateway** (`src/services/llm_service.py`, module `LlmService`).
  - A closed provider → default model table. Any other provider raises.
  - A non-empty `specific_model` overrides the default.
  - The fixed system message goes in front of the history.
  - The fragment stream is modelled as follows. The upstream stream is an input:
    the `delta.content` of each chunk (`Option<string>`) plus an optional point
    where the call or the iteration raises. The output is the non-empty deltas
    in arrival order. If the stream raised, one error fragment naming the
    provider follows them.
  - An unknown provider is resolved before the `try`, so it is a `Failure`.
    Upstream errors never are.
- **Session callbacks** (`src/app.py`, module `App`).
  - The password check is a decision over a user lookup. `verify_password` is a
    function parameter.
  - `user_session` is the `UserSession` class.
  - `start` creates a conversation and binds its id as `conversation_id`.
  - `on_chat_resume` binds the thread id and does nothing else.
  - `main` does the following, in order:
    1. applies the settings defaults;
    2. stores the user message;
    3. renames the thread to `content[:30] + "..."`;
    4. joins the streamed tokens in a loop, or stops with the stream's
       `ValueError` when the provider is unknown;
    5. stores the joined text as the assistant message.

The model follows what the code does:

- Resuming a chat only binds the thread id; no history is loaded into the
  session (src/app.py:67-75).
- The thread is renamed after every user message (src/app.py:101-103). The
  comment at src/app.py:98 describes renaming only on the first message or
  while the title is still the default; line 99 says the simplified code
  renames every time, and it does.
- No ownership check is made on resume.
- `main` calls `stream_response(message=...)` (src/app.py:112-116), but
  `stream_response` takes `history` (src/services/llm_service.py:21). As written,
  the call raises `TypeError` after the user message and the rename are stored.
  The model gives `stream_response` its own signature and makes `main`'s token
  sequence an input. It does not invent a conversation history for `main` to
  pass.

The settings menu offers "anthropic" (src/app.py:49), but the gateway rejects
it. `App.AnthropicIsOfferedButUnknown` states this.

`created_at` is a natural number that the caller supplies to each write. The
clock is not modelled. SQL leaves the order of rows with equal timestamps
unspecified; the model keeps them in insertion order, because the sort is
stable. `Crud.HistoryOfOrderedAppends` and `Crud.HistoryRoundTrip` therefore
hold for the source only when the timestamps are strictly increasing; with
equal timestamps they describe the model's tie order, not one that SQL
promises. `src/db/models.py` is not part of this model; the foreign key and the
cascade that the `Store` assumes are listed under "Left out".

## Model

| member | source | states |
|---|---|---|
| `Crud.FindConversation` | src/db/chainlit_data_layer.py:28-29 | the index of the first conversation with the given id, and `None` exactly when no conversation has it |
| `Crud.MessagesOf` | src/db/crud.py:25 | a message is in the result iff it is in the table and belongs to the conversation |
| `Crud.MessagesNotOf` | src/db/chainlit_data_layer.py:103 | the messages left by the cascade: exactly those of other conversations |
| `Crud.MessagesNotOfIncreasing` | src/db/chainlit_data_layer.py:103 | the cascade keeps the remaining message ids increasing, so the primary key stays unique |
| `Crud.ConversationsExcept` | src/db/chainlit_data_layer.py:103 | exactly the conversations whose id differs remain |
| `Crud.ConversationsExceptIncreasing` | src/db/chainlit_data_layer.py:103 | the delete keeps the remaining conversation ids increasing, so the primary key stays unique |
| `Crud.History` | src/db/crud.py:21-28 | only and all messages of the conversation, the same multiset as the filter, in ascending `created_at` order |
| `Crud.MessagesOfAppend` | src/db/crud.py:13-28 | appending messages to the table extends a conversation's filtered messages by the appended ones of that conversation, in order |
| `Crud.HistoryOfOrderedAppends` | src/db/crud.py:21-28 | when a conversation's messages were stored with non-decreasing timestamps, the history is them in append order (for equal timestamps, by the model's stable tie order) |
| `Crud.HistoryRoundTrip` | src/db/crud.py:13-28 | N messages appended with non-decreasing timestamps to a conversation that had none come back as exactly those N, in order (for equal timestamps, by the model's stable tie order) |
| `Crud.RenamedAbsent` | src/db/chainlit_data_layer.py:94-97 | renaming a conversation that does not exist leaves the table unchanged |
| `Crud.RenamedOnlyTitle` | src/db/chainlit_data_layer.py:94-97 | a rename changes titles only: with the old title put back every row is unchanged, and a lookup by any id finds the same row before and after, so the thread view, the author lookup and the foreign key of `add_message` are unaffected |
| `Crud.RenamedIdempotent` | src/db/chainlit_data_layer.py:90-98 | renaming twice with the same name equals renaming once |
| `Crud.Store.CreateConversation` | src/db/crud.py:5-11 | exactly one conversation is added, with a fresh id, the given user and the given title (default "Nueva Conversación"); existing conversations and all messages are unchanged; the store invariant is kept |
| `Crud.Store.AddMessage` | src/db/crud.py:13-19 | exactly one message is added, with a fresh id and the given conversation, role and content, and nothing else changes; a missing conversation is a foreign-key failure that changes nothing |
| `Crud.Store.SetTitle` | src/db/chainlit_data_layer.py:94-98 | the conversations become the renamed table, the messages are unchanged, and the invariant is kept |
| `Crud.Store.DeleteConversation` | src/db/chainlit_data_layer.py:100-104 | the conversation with that id is gone, other conversations are untouched, its messages are removed with it, and the invariant is kept |
| `Sorting.Sort` | src/db/crud.py:26 | the result is a permutation of the input, sorted by the key |
| `Sorting.SortOfSorted` | src/db/crud.py:26 | an input already in key order comes back unchanged, so equal keys keep their order |
| `Text.NatToString` | src/db/chainlit_data_layer.py:52 | `str(n)` is a non-empty digit string without a leading zero |
| `Text.ParseInt` | src/db/chainlit_data_layer.py:28 | `int(s)`: a value only for a non-empty text whose characters after the first are all digits, and a negative value only with a leading "-"; anything else is the `ValueError` case |
| `Text.ParseNatToString` | src/db/chainlit_data_layer.py:24-58 | `int(str(n)) == n`: a thread id handed out by the adapter parses back to the conversation id |
| `Text.ConcatAppend` | src/app.py:109-118 | accumulating the tokens of two consecutive runs gives the text of the first followed by the text of the second |
| `DataLayer.StepOf` | src/db/chainlit_data_layer.py:44-49 | the step type is "user_message" iff the role is "user" and "assistant_message" otherwise (so also for "system"); content and timestamp are copied; the step id parses back to the message id |
| `DataLayer.StepsOf` | src/db/chainlit_data_layer.py:42-49 | the loop yields one step per message, in the messages' order, each the step of its message |
| `DataLayer.GetThread` | src/db/chainlit_data_layer.py:24-58 | a non-numeric id is a `ValueError`; `None` exactly when no conversation has the id; otherwise id is `str(conversation.id)`, name is the title, userId is `str(user_id)`, metadata is empty, and the steps are that conversation's history, one step per message |
| `DataLayer.OwnedBy` | src/db/chainlit_data_layer.py:69 | exactly the conversations of the user, each as many times as it occurs in the table |
| `DataLayer.NewestFirst` | src/db/chainlit_data_layer.py:69-70 | a permutation of the user's conversations, in descending `created_at` order |
| `DataLayer.Newest` | src/db/chainlit_data_layer.py:67-75 | min(limit, owned) of the user's conversations, newest first, with no row repeated beyond its count in the table (a sub-multiset), and all of them when the limit allows |
| `DataLayer.NewestIsTopK` | src/db/chainlit_data_layer.py:70-71 | an owned conversation is either listed or no newer than every listed one |
| `DataLayer.Summary` | src/db/chainlit_data_layer.py:79-86 | a list entry has no steps and empty metadata, the title as name, and ids that parse back to the conversation's and owner's ids |
| `DataLayer.PageOf` | src/db/chainlit_data_layer.py:77-88 | the loop yields one entry per conversation, in order, each its summary, and `hasMore` is false |
| `DataLayer.ListThreads` | src/db/chainlit_data_layer.py:60-88 | no user filter gives an empty page; a non-numeric filter is a `ValueError`; otherwise one entry per selected conversation, in order, at most `first`; `hasMore` is always false |
| `DataLayer.UpdateThread` | src/db/chainlit_data_layer.py:90-98 | a no-op without a non-empty name (the id is not even parsed); a `ValueError` on a non-numeric id; otherwise the table is renamed, and messages and counters are untouched |
| `DataLayer.DeleteThread` | src/db/chainlit_data_layer.py:100-104 | a `ValueError` on a non-numeric id, else the conversation and its messages are removed and nothing else changes |
| `DataLayer.ThreadAuthor` | src/db/chainlit_data_layer.py:106-112 | a `ValueError` on a non-numeric id; "" exactly when the thread is absent; otherwise exactly `str(user_id)` of the first row with that id |
| `DataLayer.DeletedThreadIsAbsent` | src/db/chainlit_data_layer.py:100-112 | after a delete, lookup finds nothing and the author lookup answers "" |
| `LlmService.GetClientAndModel` | src/services/llm_service.py:9-18 | succeeds iff the provider is "ollama", "openrouter" or "openai", with defaults "llama3", "openai/gpt-3.5-turbo" and "gpt-3.5-turbo" and the client of that provider; any other name raises "Proveedor desconocido" |
| `LlmService.Delivered` | src/services/llm_service.py:39 | the chunks received before a failure are the first `after` chunks of the stream (all of them if it has fewer), and all of it without a failure |
| `LlmService.NonEmptyDeltas` | src/services/llm_service.py:39-41 | every fragment is non-empty and is some chunk's content, and every non-empty content is yielded |
| `LlmService.ErrorFragment` | src/services/llm_service.py:43-44 | the error fragment starts with the fixed prefix, names the provider, and ends with the exception's text |
| `LlmService.StreamResponse` | src/services/llm_service.py:21-44 | raises iff the provider is unknown; otherwise the client is that provider's, the model is `specific_model` when non-empty, else the default; the request is the system message followed by the history; the fragments are the non-empty deltas received, plus one error fragment if the stream failed |
| `LlmService.NonEmptyDeltasAppend` | src/services/llm_service.py:39-41 | filtering keeps arrival order: the fragments of two consecutive runs of chunks are the concatenation of each run's fragments |
| `LlmService.ConcatNonEmptyDeltas` | src/services/llm_service.py:39-41 | dropping empty and missing deltas loses no text |
| `LlmService.StreamText` | src/services/llm_service.py:32-44 | joined, the fragments are the text received followed by the error text when the stream failed |
| `App.FindUser` | src/app.py:18-19 | the result is a user with that email, and `None` only when no user has it |
| `App.Auth` | src/app.py:10-29 | a user is returned iff the email exists and the password verifies; it carries the username, `metadata["id"]` is the database id, and `id` is exactly `str` of that id, which parses back to it |
| `App.Truthy` | src/app.py:93 | `if conversation_id:` is false for an unset key, for the integer 0 and for "", and true for every text that `int()` accepts |
| `App.HandleToInt` | src/app.py:95 | `int(conversation_id)` is the integer itself for an integer handle, and any handle that yields a value passes the `if conversation_id:` guard unless it is the integer 0 |
| `App.HandleToString` | src/app.py:101 | `int(str(conversation_id))` equals `int(conversation_id)` for both forms the session stores |
| `App.Start` | src/app.py:31-41 | exactly one conversation titled "Nueva Conversación" is created for `user.metadata["id"]`; `conversation_id` is bound to its id, which is truthy and finds that conversation; messages are unchanged |
| `App.OnChatResume` | src/app.py:67-75 | `conversation_id` becomes the thread's id; nothing else in the session, and nothing in the store, changes |
| `App.ResumedHandleNamesConversation` | src/app.py:75 | a thread from `get_thread` resumes onto its own conversation id |
| `App.TurnSettings` | src/app.py:84-90 | without chat settings: ("ollama", "llama3"); with settings: the chosen "ModelProvider" and "ModelName" are used, a missing provider is "ollama" and a missing model name is `None` |
| `App.DefaultSettingsResolve` | src/app.py:84-86 | the default settings name a provider that the gateway accepts, and "llama3" |
| `App.AnthropicIsOfferedButUnknown` | src/app.py:49 | the menu offers "anthropic", which the gateway rejects, so `stream_response` raises for it |
| `App.TitleFor` | src/app.py:102 | the title is the first min(30, length) characters of the message followed by "...", so between 3 and 33 characters long |
| `App.JoinTokens` | src/app.py:109-118 | the accumulated reply is the in-order concatenation of all tokens |
| `App.SaveUserMessage` | src/app.py:92-103 | a non-numeric id is a `ValueError` and a missing conversation a foreign-key failure, both changing nothing; otherwise one user message is appended, the conversation is renamed to the title and can still be found by its id |
| `App.SaveReply` | src/app.py:121-125 | the joined reply is appended as one "assistant" message of a conversation that exists, so the foreign key holds, and the conversations are unchanged |
| `App.FinishTurn` | src/app.py:109-125 | a stream that raises ends the turn with its `ValueError` and changes nothing; otherwise the reply is the in-order join of the tokens and is stored as the assistant message |
| `App.StoreTurn` | src/app.py:92-125 | for a bound conversation: a bad id or a missing conversation changes nothing; otherwise the user message is stored and the title set; then either the stream's `ValueError` with nothing more stored, or the assistant message holding the joined tokens |
| `App.OnMessage` | src/app.py:77-125 | the settings and the reply are those of the turn, and the reply is the in-order join of the tokens; without `conversation_id` nothing is stored; with one, the user message is stored and the title set before the stream is read; if the stream raises (an unknown provider) the turn fails with that `ValueError` and no reply is stored, otherwise the assistant message holding the joined tokens follows |
| `App.StartedThreadAuthor` | src/app.py:22-26 | the thread started for an authenticated user reports that user's `id` as its author, so the author check of the history view passes |

## Left out

- `main.py`: application setup, table creation, routing and server launch. These are plumbing.
- `src/services/ollama_service.py`: the model-listing HTTP call and its fallback list. This is network I/O.
- `src/services/llm_factory.py`: a placeholder with no behaviour.
- `CustomDataLayer.get_user`, `create_user` and the step, element and feedback methods: they are empty stubs or unused.
- The session, commit and refresh mechanics of SQLAlchemy, connection scoping, and the async scheduling: each operation is one atomic step.
- Client construction, base URLs and API keys: a provider selects a `Backend` tag, which records only which provider's client is used.
- The Chainlit UI calls: `ChatSettings` widgets, `Message.send`, `stream_token` and `update`, and the greeting message.
- `verify_password`: its code is not part of this model, so it is a function parameter.
- Timestamp generation and ISO rendering: `createdAt` is the stored natural number.
- Text.ParseInt: accepts an optional sign followed by ASCII digits. Python's `int()` also accepts surrounding whitespace, underscores between digits and non-ASCII decimal digits; such ids are `ValueError` here.
- LlmService.StreamResponse: a chunk without `choices` raises `IndexError` inside the `try`. The model covers this only as a failure point of the stream.
- App.OnMessage: the call to `stream_response` as written raises `TypeError`, because of the `message=` keyword. The model takes the outcome of the stream as an input instead of modelling that exception: either the tokens it yields or the `ValueError` of an unknown provider. Which one occurs is not tied to the turn's provider inside `OnMessage`; `LlmService.StreamResponse` states that the failure happens exactly for an unknown provider.
- App.Start: requires an authenticated user in the session. Chainlit calls it only after authentication; without a user the source fails on `user.metadata`.
- Crud.Store.AddMessage: the foreign key from messages to conversations is assumed; `src/db/models.py` and the database engine are not part of this model, so the `IntegrityError` holds only if the schema declares the key and the database enforces it.
- Crud.Store.DeleteConversation: the cascade to the conversation's messages is assumed. The bulk `delete(Conversation)` at src/db/chainlit_data_layer.py:103 bypasses ORM cascades, so it holds only if the schema declares ON DELETE CASCADE and the database enforces foreign keys.
- DataLayer.UpdateThread: the `user_id`, `metadata` and `tags` parameters are left out. The source ignores them.

=== FILE: app.dfy ===
/** The Chainlit callbacks: password authentication, the start of a new chat,
    the resumption of an old one, and the handling of one user message. The
    per-connection `user_session` dictionary is the `UserSession` class. */
module App {
  import opened Wrappers
  import opened Text
  import opened Crud
  import DataLayer
  import LlmService

  /** A row of the `users` table. */
  datatype UserRow = UserRow(id: nat, email: string, hashedPassword: string)

  /** The authenticated principal: `cl.User(identifier, id, metadata={"id": ...})`. */
  datatype AppUser = AppUser(identifier: string, id: string, metadataId: nat)

  /** The first user whose email is `email`. */
  function FindUser(users: seq<UserRow>, email: string): (r: Option<UserRow>)
    ensures r.Some? ==> r.value in users && r.value.email == email
    ensures r.None? ==> forall u :: u in users ==> u.email != email
    decreases |users|
  {
    if users == [] then None
    else if users[0].email == email then Some(users[0])
    else FindUser(users[1..], email)
  }

  /** `auth`: accepts iff the user exists and the password verifies against its
      hash; `verify` stands for `verify_password`, whose code is not modelled.
      Both ways of failing give the same `None`. */
  function Auth(users: seq<UserRow>, username: string, password: string, verify: (string, string) -> bool)
    : (r: Option<AppUser>)
    ensures r.Some? <==>
      FindUser(users, username).Some? && verify(password, FindUser(users, username).value.hashedPassword)
    ensures r.Some? ==>
      r.value.identifier == username && r.value.metadataId == FindUser(users, username).value.id
    ensures r.Some? ==> r.value.id == NatToString(r.value.metadataId)
    ensures r.Some? ==> ParseInt(r.value.id) == Some(r.value.metadataId)
  {
    match FindUser(users, username)
    case None => None
    case Some(u) =>
      if verify(password, u.hashedPassword) then
        ParseNatToString(u.id);
        Some(AppUser(username, NatToString(u.id), u.id))
      else None
  }

  /** The value stored under "conversation_id": the integer id after a new
      chat, the thread's id string after a resume. */
  datatype ConversationHandle = IntHandle(n: nat) | TextHandle(s: string)

  /** `if conversation_id:`: an unset key, the integer 0 and the empty string
      are false. */
  predicate Truthy(h: Option<ConversationHandle>): (b: bool)
    ensures b ==> h.Some?
    ensures h.Some? && h.value.IntHandle? ==> (b <==> h.value.n != 0)
    ensures h.Some? && h.value.TextHandle? ==> (b <==> h.value.s != "")
    ensures h.Some? && h.value.TextHandle? && ParseInt(h.value.s).Some? ==> b
  {
    match h
    case None => false
    case Some(IntHandle(n)) => n != 0
    case Some(TextHandle(s)) => s != ""
  }

  /** `int(conversation_id)`; `None` is the `ValueError` case. */
  function HandleToInt(h: ConversationHandle): (r: Option<int>)
    ensures h.IntHandle? ==> r == Some(h.n)
    ensures r.Some? && (h.TextHandle? || r.value != 0) ==> Truthy(Some(h))
  {
    match h
    case IntHandle(n) => Some(n)
    case TextHandle(s) => ParseInt(s)
  }

  /** `str(conversation_id)` */
  function HandleToString(h: ConversationHandle): (s: string)
    ensures ParseInt(s) == HandleToInt(h)
  {
    match h
    case IntHandle(n) => ParseNatToString(n); NatToString(n)
    case TextHandle(s) => s
  }

  /** The keys "user", "conversation_id" and "chat_settings" of `cl.user_session`. */
  class UserSession {
    var user: Option<AppUser>
    var conversationId: Option<ConversationHandle>
    var chatSettings: Option<map<string, string>>

    constructor (user: Option<AppUser>, chatSettings: Option<map<string, string>>)
      ensures this.user == user && this.chatSettings == chatSettings && conversationId.None?
    {
      this.user := user;
      this.chatSettings := chatSettings;
      conversationId := None;
    }
  }

  /** The providers the settings menu offers. */
  const ProviderChoices: seq<string> := ["ollama", "openai", "anthropic"]

  /** `on_chat_start`: creates one conversation for the user and binds its id. */
  method Start(session: UserSession, db: Store, now: nat)
    requires db.Valid() && session.user.Some?
    modifies session`conversationId, db
    ensures db.Valid()
    ensures db.conversations ==
      old(db.conversations) + [Conversation(old(db.nextConversationId), session.user.value.metadataId, DefaultTitle, now)]
    ensures db.messages == old(db.messages)
    ensures session.conversationId == Some(IntHandle(old(db.nextConversationId)))
    ensures Truthy(session.conversationId)
    ensures FindConversation(db.conversations, old(db.nextConversationId)) == Some(|old(db.conversations)|)
  {
    var conv := db.CreateConversation(session.user.value.metadataId, now, DefaultTitle);
    session.conversationId := Some(IntHandle(conv.id));
    assert db.conversations[|old(db.conversations)|] == conv;
    assert forall j :: 0 <= j < |old(db.conversations)| ==> db.conversations[j].id != conv.id;
  }

  /** `on_chat_resume`: binds the thread's id and does nothing else: no history
      is loaded and no ownership is checked. */
  method OnChatResume(session: UserSession, thread: DataLayer.Thread)
    modifies session`conversationId
    ensures session.conversationId == Some(TextHandle(thread.id))
  {
    session.conversationId := Some(TextHandle(thread.id));
  }

  /** A thread served by `get_thread` resumes onto its own conversation. */
  lemma ResumedHandleNamesConversation(t: DataLayer.Thread, c: Conversation, h: seq<Message>)
    requires DataLayer.IsDetailOf(t, c, h)
    ensures Truthy(Some(TextHandle(t.id)))
    ensures HandleToInt(TextHandle(t.id)) == Some(c.id)
  {
    ParseNatToString(c.id);
  }

  datatype Settings = Settings(provider: string, modelName: Option<string>)

  /** The provider and model name a turn uses. Without chat settings both
      defaults apply; with settings, a chosen provider and model name are used,
      a missing provider is "ollama" and a missing model name is `None`. */
  function TurnSettings(chatSettings: Option<map<string, string>>): (s: Settings)
    ensures chatSettings.None? || chatSettings.value == map[] ==> s == Settings("ollama", Some("llama3"))
    ensures chatSettings.Some? && chatSettings.value != map[] && "ModelProvider" !in chatSettings.value ==>
      s.provider == "ollama"
    ensures chatSettings.Some? && chatSettings.value != map[] && "ModelName" !in chatSettings.value ==>
      s.modelName.None?
    ensures chatSettings.Some? && "ModelProvider" in chatSettings.value ==>
      s.provider == chatSettings.value["ModelProvider"]
    ensures chatSettings.Some? && "ModelName" in chatSettings.value ==>
      s.modelName == Some(chatSettings.value["ModelName"])
  {
    match chatSettings
    case None => Settings("ollama", Some("llama3"))
    case Some(m) =>
      if m == map[] then Settings("ollama", Some("llama3"))
      else
        Settings(if "ModelProvider" in m then m["ModelProvider"] else "ollama",
                 if "ModelName" in m then Some(m["ModelName"]) else None)
  }

  /** Without chat settings a turn streams from Ollama's "llama3". */
  lemma DefaultSettingsResolve()
    ensures LlmService.GetClientAndModel(TurnSettings(None).provider).Success?
    ensures TurnSettings(None).modelName == Some("llama3")
  {
  }

  /** The settings menu offers "anthropic", which the gateway does not know:
      with it chosen, `stream_response` raises before yielding anything, so a
      turn stores the user message and the rename but never a reply. */
  lemma AnthropicIsOfferedButUnknown()
    ensures "anthropic" in ProviderChoices
    ensures LlmService.GetClientAndModel("anthropic").Failure?
  {
  }

  /** `message.content[:30] + "..."` */
  function TitleFor(content: string): (t: string)
    ensures 3 <= |t| <= 33 && |t| - 3 <= |content|
    ensures t == content[..|t| - 3] + "..."
    ensures |content| <= 30 ==> t == content + "..."
    ensures |content| >= 30 ==> |t| == 33
  {
    (if |content| <= 30 then content else content[..30]) + "..."
  }

  datatype Turn = Turn(settings: Settings, response: string)

  /** Step 2 of `on_message` for a bound conversation: `int(conversation_id)`,
      the user message, then the rename to the message's first 30 characters. */
  method SaveUserMessage(db: Store, handle: ConversationHandle, content: string, userTime: nat)
    returns (r: Result<nat, Error>)
    requires db.Valid()
    modifies db
    ensures db.Valid()
    ensures HandleToInt(handle).None? ==> r.Failure? && r.error.ValueError? && unchanged(db)
    ensures HandleToInt(handle).Some? && FindConversation(old(db.conversations), HandleToInt(handle).value).None? ==>
      r == Failure(IntegrityError(HandleToInt(handle).value)) && unchanged(db)
    ensures HandleToInt(handle).Some? && FindConversation(old(db.conversations), HandleToInt(handle).value).Some? ==>
      r.Success?
    ensures r.Success? ==> HandleToInt(handle) == Some(r.value as int)
    ensures r.Success? ==> FindConversation(old(db.conversations), r.value).Some?
    ensures r.Success? ==>
      db.messages == old(db.messages) + [Message(old(db.nextMessageId), r.value, "user", content, userTime)]
    ensures r.Success? ==> db.conversations == Renamed(old(db.conversations), r.value, TitleFor(content))
    ensures r.Success? ==> FindConversation(db.conversations, r.value).Some?
    ensures r.Success? ==> db.nextMessageId == old(db.nextMessageId) + 1
  {
    if HandleToInt(handle).None? {
      return Failure(ValueError(HandleToString(handle)));
    }
    var id := HandleToInt(handle).value;
    var userMessage :- db.AddMessage(id, "user", content, userTime);
    var renamed := DataLayer.UpdateThread(db, HandleToString(handle), Some(TitleFor(content)));
    assert renamed.Success?;
    RenamedOnlyTitle(old(db.conversations), id, TitleFor(content), id);
    r := Success(userMessage.conversationId);
  }

  /** Step 4 of `on_message`: `full_response += token` for every token. */
  method JoinTokens(tokens: seq<string>) returns (fullResponse: string)
    ensures fullResponse == Concat(tokens)
  {
    fullResponse := "";
    for i := 0 to |tokens|
      invariant fullResponse == Concat(tokens[..i])
    {
      assert tokens[..i + 1][..i] == tokens[..i];
      fullResponse := fullResponse + tokens[i];
    }
    assert tokens[..|tokens|] == tokens;
  }

  /** Step 5 of `on_message`: the joined reply, stored in a conversation that
      exists, so the insert cannot violate the foreign key. */
  method SaveReply(db: Store, id: nat, fullResponse: string, replyTime: nat)
    requires db.Valid() && FindConversation(db.conversations, id).Some?
    modifies db
    ensures db.Valid()
    ensures db.messages == old(db.messages) + [Message(old(db.nextMessageId), id, "assistant", fullResponse, replyTime)]
    ensures db.conversations == old(db.conversations)
  {
    var reply := db.AddMessage(id, "assistant", fullResponse, replyTime);
    assert reply.Success?;
  }

  /** Steps 4 and 5 of `on_message` once the user message is stored: a stream
      that raises ends the turn with its `ValueError` and stores nothing more;
      otherwise the joined tokens are stored as the reply. */
  method FinishTurn(db: Store, id: nat, stream: Result<seq<string>, LlmService.GatewayError>, replyTime: nat)
    returns (r: Result<string, Error>)
    requires db.Valid() && FindConversation(db.conversations, id).Some?
    modifies db
    ensures db.Valid()
    ensures stream.Failure? ==> r == Failure(ValueError(stream.error.text)) && unchanged(db)
    ensures stream.Success? ==>
      r == Success(Concat(stream.value)) && db.conversations == old(db.conversations) &&
      db.messages == old(db.messages) + [Message(old(db.nextMessageId), id, "assistant", Concat(stream.value), replyTime)]
  {
    if stream.Failure? {
      return Failure(ValueError(stream.error.text));
    }
    var fullResponse := JoinTokens(stream.value);
    SaveReply(db, id, fullResponse, replyTime);
    r := Success(fullResponse);
  }

  /** Steps 2 to 5 of `on_message` for a bound conversation: store the user
      message and rename the thread, then read the stream; the joined reply is
      stored only when the stream succeeds. */
  method StoreTurn(db: Store, handle: ConversationHandle, content: string,
                   stream: Result<seq<string>, LlmService.GatewayError>, userTime: nat, replyTime: nat)
    returns (r: Result<string, Error>)
    requires db.Valid()
    modifies db
    ensures db.Valid()
    ensures r.Success? ==> stream.Success? && r.value == Concat(stream.value)
    ensures HandleToInt(handle).None? ==> r.Failure? && r.error.ValueError? && unchanged(db)
    ensures HandleToInt(handle).Some? && FindConversation(old(db.conversations), HandleToInt(handle).value).None? ==>
      r == Failure(IntegrityError(HandleToInt(handle).value)) && unchanged(db)
    ensures HandleToInt(handle).Some? && FindConversation(old(db.conversations), HandleToInt(handle).value).Some? ==>
      var id := HandleToInt(handle).value;
      db.conversations == Renamed(old(db.conversations), id, TitleFor(content)) &&
      if stream.Success? then
        r.Success? &&
        db.messages == old(db.messages) + [
          Message(old(db.nextMessageId), id, "user", content, userTime),
          Message(old(db.nextMessageId) + 1, id, "assistant", Concat(stream.value), replyTime)]
      else
        r == Failure(ValueError(stream.error.text)) &&
        db.messages == old(db.messages) + [Message(old(db.nextMessageId), id, "user", content, userTime)]
  {
    var saved := SaveUserMessage(db, handle, content, userTime);
    if saved.Failure? {
      return Failure(saved.error);
    }
    var id := saved.value;
    ghost var userMessage := Message(old(db.nextMessageId), id, "user", content, userTime);
    assert db.messages == old(db.messages) + [userMessage];
    r := FinishTurn(db, id, stream, replyTime);
    if stream.Success? {
      ghost var reply := Message(old(db.nextMessageId) + 1, id, "assistant", Concat(stream.value), replyTime);
      assert db.messages == old(db.messages) + [userMessage, reply];
    }
  }

  /** `on_message`, with the outcome of the stream as an input: the tokens it
      yields, or the `ValueError` it raises (an unknown provider). With a
      conversation bound, the user message is stored and the thread is renamed
      after it (on every message) before the stream is read; the joined tokens
      are stored as the assistant's reply only when the stream succeeds.
      Without a conversation nothing is stored. */
  method OnMessage(session: UserSession, db: Store, content: string,
                   stream: Result<seq<string>, LlmService.GatewayError>, userTime: nat, replyTime: nat)
    returns (r: Result<Turn, Error>)
    requires db.Valid()
    modifies db
    ensures db.Valid()
    ensures r.Success? ==> stream.Success? && r.value.settings == TurnSettings(session.chatSettings)
    ensures r.Success? ==> r.value.response == Concat(stream.value)
    ensures !Truthy(session.conversationId) ==> unchanged(db)
    ensures !Truthy(session.conversationId) && stream.Success? ==> r.Success?
    ensures !Truthy(session.conversationId) && stream.Failure? ==> r == Failure(ValueError(stream.error.text))
    ensures Truthy(session.conversationId) && HandleToInt(session.conversationId.value).None? ==>
      r.Failure? && r.error.ValueError? && unchanged(db)
    ensures Truthy(session.conversationId) && HandleToInt(session.conversationId.value).Some? &&
            FindConversation(old(db.conversations), HandleToInt(session.conversationId.value).value).None? ==>
      r == Failure(IntegrityError(HandleToInt(session.conversationId.value).value)) && unchanged(db)
    ensures Truthy(session.conversationId) && HandleToInt(session.conversationId.value).Some? &&
            FindConversation(old(db.conversations), HandleToInt(session.conversationId.value).value).Some? ==>
      var id := HandleToInt(session.conversationId.value).value;
      db.conversations == Renamed(old(db.conversations), id, TitleFor(content)) &&
      if stream.Success? then
        r.Success? &&
        db.messages == old(db.messages) + [
          Message(old(db.nextMessageId), id, "user", content, userTime),
          Message(old(db.nextMessageId) + 1, id, "assistant", Concat(stream.value), replyTime)]
      else
        r == Failure(ValueError(stream.error.text)) &&
        db.messages == old(db.messages) + [Message(old(db.nextMessageId), id, "user", content, userTime)]
  {
    var settings := TurnSettings(session.chatSettings);
    var conversationId := session.conversationId;
    if !Truthy(conversationId) {
      if stream.Failure? {
        return Failure(ValueError(stream.error.text));
      }
      var fullResponse := JoinTokens(stream.value);
      return Success(Turn(settings, fullResponse));
    }
    var fullResponse :- StoreTurn(db, conversationId.value, content, stream, userTime, replyTime);
    r := Success(Turn(settings, fullResponse));
  }

  /** The author check on a new chat passes: the thread `start` created for an
      authenticated user is reported as written by that user's `id`. */
  lemma StartedThreadAuthor(users: seq<UserRow>, username: string, password: string,
                            verify: (string, string) -> bool, cs: seq<Conversation>, k: nat)
    requires Auth(users, username, password, verify).Some?
    requires k < |cs| && FindConversation(cs, cs[k].id) == Some(k)
    requires cs[k].userId == Auth(users, username, password, verify).value.metadataId
    ensures DataLayer.ThreadAuthor(cs, NatToString(cs[k].id)) ==
      Success(Auth(users, username, password, verify).value.id)
  {
    ParseNatToString(cs[k].id);
  }
}

=== FILE: crud.dfy ===
/** The conversation repository: the `conversations` and `messages` tables and
    the three queries of the CRUD layer, over an in-memory store. */
module Crud {
  import opened Wrappers
  import Sorting

  const DefaultTitle: string := "Nueva Conversación"

  datatype Conversation = Conversation(id: nat, userId: nat, title: string, createdAt: nat)

  datatype Message = Message(id: nat, conversationId: nat, role: string, content: string, createdAt: nat)

  /** Index of the first conversation with id `id` (`.first()` of the query). */
  function FindConversation(cs: seq<Conversation>, id: int): (r: Option<nat>)
    ensures r.Some? ==> r.value < |cs| && cs[r.value].id == id
    ensures r.Some? ==> forall j :: 0 <= j < r.value ==> cs[j].id != id
    ensures r.None? ==> forall j :: 0 <= j < |cs| ==> cs[j].id != id
    decreases |cs|
  {
    if cs == [] then None
    else if cs[0].id == id then Some(0)
    else match FindConversation(cs[1..], id)
      case None => None
      case Some(k) => Some(k + 1)
  }

  /** Row ids grow along the table; this is what keeps them unique. */
  ghost predicate IdsIncreasing(cs: seq<Conversation>) {
    forall i, j :: 0 <= i < j < |cs| ==> cs[i].id < cs[j].id
  }

  /** Message ids grow along the table; this is what keeps them unique. */
  ghost predicate MessageIdsIncreasing(ms: seq<Message>) {
    forall i, j :: 0 <= i < j < |ms| ==> ms[i].id < ms[j].id
  }

  /** The rows of `messages` whose `conversation_id` is `c`, in table order. */
  function MessagesOf(ms: seq<Message>, c: int): (r: seq<Message>)
    ensures forall m :: m in r <==> m in ms && m.conversationId == c
    ensures |r| <= |ms|
    decreases |ms|
  {
    if ms == [] then []
    else
      var rest := MessagesOf(ms[..|ms| - 1], c);
      var m := ms[|ms| - 1];
      assert ms == ms[..|ms| - 1] + [m];
      if m.conversationId == c then rest + [m] else rest
  }

  /** The rows of `messages` whose `conversation_id` is not `c` (what a cascade
      delete of conversation `c` leaves). */
  function MessagesNotOf(ms: seq<Message>, c: int): (r: seq<Message>)
    ensures forall m :: m in r <==> m in ms && m.conversationId != c
    decreases |ms|
  {
    if ms == [] then []
    else
      var rest := MessagesNotOf(ms[1..], c);
      assert ms == [ms[0]] + ms[1..];
      if ms[0].conversationId != c then [ms[0]] + rest else rest
  }

  lemma {:induction false} MessagesNotOfAbove(ms: seq<Message>, c: int, b: int)
    requires forall k :: 0 <= k < |ms| ==> b < ms[k].id
    ensures forall k :: 0 <= k < |MessagesNotOf(ms, c)| ==> b < MessagesNotOf(ms, c)[k].id
    decreases |ms|
  {
    if ms != [] {
      MessagesNotOfAbove(ms[1..], c, b);
    }
  }

  /** The cascade keeps the remaining message ids in increasing order, so they
      stay unique. */
  lemma {:induction false} MessagesNotOfIncreasing(ms: seq<Message>, c: int)
    requires MessageIdsIncreasing(ms)
    ensures MessageIdsIncreasing(MessagesNotOf(ms, c))
    decreases |ms|
  {
    if ms != [] {
      var tail := ms[1..];
      assert forall k :: 0 <= k < |tail| ==> tail[k] == ms[k + 1];
      MessagesNotOfIncreasing(tail, c);
      if ms[0].conversationId != c {
        MessagesNotOfAbove(tail, c, ms[0].id);
      }
    }
  }

  /** The rows of `conversations` whose id is not `id`. */
  function ConversationsExcept(cs: seq<Conversation>, id: int): (r: seq<Conversation>)
    ensures forall c :: c in r <==> c in cs && c.id != id
    decreases |cs|
  {
    if cs == [] then []
    else
      var rest := ConversationsExcept(cs[1..], id);
      assert cs == [cs[0]] + cs[1..];
      if cs[0].id == id then rest else [cs[0]] + rest
  }

  lemma {:induction false} ConversationsExceptAbove(cs: seq<Conversation>, id: int, b: int)
    requires forall k :: 0 <= k < |cs| ==> b < cs[k].id
    ensures forall k :: 0 <= k < |ConversationsExcept(cs, id)| ==> b < ConversationsExcept(cs, id)[k].id
    decreases |cs|
  {
    if cs != [] {
      ConversationsExceptAbove(cs[1..], id, b);
    }
  }

  /** Deleting rows keeps the remaining conversation ids in increasing order,
      so they stay unique. */
  lemma {:induction false} ConversationsExceptIncreasing(cs: seq<Conversation>, id: int)
    requires IdsIncreasing(cs)
    ensures IdsIncreasing(ConversationsExcept(cs, id))
    decreases |cs|
  {
    if cs != [] {
      var tail := cs[1..];
      assert forall k :: 0 <= k < |tail| ==> tail[k] == cs[k + 1];
      ConversationsExceptIncreasing(tail, id);
      if cs[0].id != id {
        ConversationsExceptAbove(tail, id, cs[0].id);
      }
    }
  }

  /** The table after `conversation.title = title` on the row with id `id`. */
  function Renamed(cs: seq<Conversation>, id: int, title: string): (r: seq<Conversation>) {
    seq(|cs|, i requires 0 <= i < |cs| => if cs[i].id == id then cs[i].(title := title) else cs[i])
  }

  function MessageTime(m: Message): int {
    m.createdAt
  }

  /** `get_conversation_history`: the messages of conversation `c`, ordered by
      ascending `created_at`. */
  function History(ms: seq<Message>, c: int): (r: seq<Message>)
    ensures forall m :: m in r <==> m in ms && m.conversationId == c
    ensures multiset(r) == multiset(MessagesOf(ms, c))
    ensures forall i, j :: 0 <= i < j < |r| ==> r[i].createdAt <= r[j].createdAt
  {
    var r := Sorting.Sort(MessagesOf(ms, c), MessageTime);
    assert forall m :: m in r <==> m in MessagesOf(ms, c) by {
      forall m ensures m in r <==> m in MessagesOf(ms, c) {
        assert m in r <==> m in multiset(r);
      }
    }
    assert forall i, j :: 0 <= i < j < |r| ==> MessageTime(r[i]) <= MessageTime(r[j]);
    r
  }

  lemma {:induction false} MessagesOfAppend(ms: seq<Message>, added: seq<Message>, c: int)
    ensures MessagesOf(ms + added, c) == MessagesOf(ms, c) + MessagesOf(added, c)
    decreases |added|
  {
    if added == [] {
      assert ms + added == ms;
    } else {
      var a' := added[..|added| - 1];
      assert (ms + added)[..|ms + added| - 1] == ms + a';
      MessagesOfAppend(ms, a', c);
    }
  }

  lemma {:induction false} MessagesOfAll(ms: seq<Message>, c: int)
    requires forall m :: m in ms ==> m.conversationId == c
    ensures MessagesOf(ms, c) == ms
    decreases |ms|
  {
    if ms != [] {
      MessagesOfAll(ms[..|ms| - 1], c);
      assert ms == ms[..|ms| - 1] + [ms[|ms| - 1]];
    }
  }

  /** When the messages of `c` were stored with non-decreasing timestamps, the
      history is exactly those messages in the order they were appended. */
  lemma HistoryOfOrderedAppends(ms: seq<Message>, c: int)
    requires forall i, j :: 0 <= i < j < |MessagesOf(ms, c)| ==>
      MessagesOf(ms, c)[i].createdAt <= MessagesOf(ms, c)[j].createdAt
    ensures History(ms, c) == MessagesOf(ms, c)
  {
    Sorting.SortOfSorted(MessagesOf(ms, c), MessageTime);
  }

  /** Round trip: messages appended to a conversation that had none, with
      non-decreasing timestamps, are read back as exactly those messages. */
  lemma HistoryRoundTrip(ms: seq<Message>, added: seq<Message>, c: int)
    requires MessagesOf(ms, c) == []
    requires forall m :: m in added ==> m.conversationId == c
    requires forall i, j :: 0 <= i < j < |added| ==> added[i].createdAt <= added[j].createdAt
    ensures History(ms + added, c) == added
  {
    MessagesOfAppend(ms, added, c);
    MessagesOfAll(added, c);
    assert MessagesOf(ms + added, c) == added;
    HistoryOfOrderedAppends(ms + added, c);
  }

  /** `update_thread` on an absent conversation changes nothing. */
  lemma RenamedAbsent(cs: seq<Conversation>, id: int, title: string)
    requires FindConversation(cs, id).None?
    ensures Renamed(cs, id, title) == cs
  {
  }

  /** A rename touches titles only: with its old title put back every row is
      what it was, so no id moves and every lookup by id (the thread view, the
      author lookup, the foreign key of `add_message`) finds the same row. */
  lemma {:induction false} RenamedOnlyTitle(cs: seq<Conversation>, id: int, title: string, x: int)
    ensures |Renamed(cs, id, title)| == |cs|
    ensures forall i :: 0 <= i < |cs| ==> Renamed(cs, id, title)[i].(title := cs[i].title) == cs[i]
    ensures FindConversation(Renamed(cs, id, title), x) == FindConversation(cs, x)
    decreases |cs|
  {
    if cs != [] {
      assert Renamed(cs, id, title)[1..] == Renamed(cs[1..], id, title);
      RenamedOnlyTitle(cs[1..], id, title, x);
    }
  }

  /** Renaming twice with the same title is renaming once. */
  lemma RenamedIdempotent(cs: seq<Conversation>, id: int, title: string)
    ensures Renamed(Renamed(cs, id, title), id, title) == Renamed(cs, id, title)
  {
  }

  /** The database tables. Ids come from autoincrement counters that start at 1;
      `created_at` is supplied by the caller, since the clock is not modelled. */
  class Store {
    var conversations: seq<Conversation>
    var messages: seq<Message>
    var nextConversationId: nat
    var nextMessageId: nat

    /** Ids are positive and below their counter, conversation ids and
        message ids are unique (they grow along each table), and every message belongs to an existing conversation (the
        foreign key). */
    ghost predicate Valid()
      reads this
    {
      1 <= nextConversationId && 1 <= nextMessageId &&
      (forall c :: c in conversations ==> 1 <= c.id < nextConversationId) &&
      IdsIncreasing(conversations) &&
      (forall m :: m in messages ==> 1 <= m.id < nextMessageId) &&
      MessageIdsIncreasing(messages) &&
      (forall m :: m in messages ==> FindConversation(conversations, m.conversationId).Some?)
    }

    constructor ()
      ensures Valid()
      ensures conversations == [] && messages == []
    {
      conversations, messages := [], [];
      nextConversationId, nextMessageId := 1, 1;
    }

    /** `create_conversation`: inserts one row with a fresh id and returns it. */
    method CreateConversation(userId: nat, now: nat, title: string := DefaultTitle) returns (c: Conversation)
      requires Valid()
      modifies this
      ensures Valid()
      ensures c == Conversation(old(nextConversationId), userId, title, now)
      ensures forall d :: d in old(conversations) ==> d.id != c.id
      ensures conversations == old(conversations) + [c]
      ensures messages == old(messages)
      ensures nextMessageId == old(nextMessageId)
    {
      c := Conversation(nextConversationId, userId, title, now);
      conversations := conversations + [c];
      nextConversationId := nextConversationId + 1;
      forall m | m in messages ensures FindConversation(conversations, m.conversationId).Some? {
        var k := FindConversation(old(conversations), m.conversationId).value;
        assert conversations[k].id == m.conversationId;
      }
    }

    /** `add_message`: inserts one row with a fresh id. A `conversation_id`
        naming no conversation violates the foreign key: the insert fails
        and nothing changes. */
    method AddMessage(conversationId: int, role: string, content: string, now: nat) returns (r: Result<Message, Error>)
      requires Valid()
      modifies this
      ensures Valid()
      ensures FindConversation(old(conversations), conversationId).None? <==> r.Failure?
      ensures r.Failure? ==> r.error == IntegrityError(conversationId) && unchanged(this)
      ensures r.Success? ==> r.value == Message(old(nextMessageId), conversationId, role, content, now)
      ensures r.Success? ==> forall m :: m in old(messages) ==> m.id != r.value.id
      ensures r.Success? ==> messages == old(messages) + [r.value] && nextMessageId == old(nextMessageId) + 1
      ensures conversations == old(conversations)
      ensures nextConversationId == old(nextConversationId)
    {
      if FindConversation(conversations, conversationId).None? {
        return Failure(IntegrityError(conversationId));
      }
      var m := Message(nextMessageId, conversationId, role, content, now);
      messages := messages + [m];
      nextMessageId := nextMessageId + 1;
      r := Success(m);
    }

    /** `conversation.title = title` on the conversation with id `id`, if any. */
    method SetTitle(id: int, title: string)
      requires Valid()
      modifies this
      ensures Valid()
      ensures conversations == Renamed(old(conversations), id, title)
      ensures messages == old(messages)
      ensures nextConversationId == old(nextConversationId) && nextMessageId == old(nextMessageId)
    {
      var k := FindConversation(conversations, id);
      if k.Some? {
        conversations := conversations[k.value := conversations[k.value].(title := title)];
      }
      assert conversations == Renamed(old(conversations), id, title);
      forall m | m in messages ensures FindConversation(conversations, m.conversationId).Some? {
        var j := FindConversation(old(conversations), m.conversationId).value;
        assert conversations[j].id == m.conversationId;
      }
    }

    /** `DELETE FROM conversations WHERE id = id`, cascading to its messages. */
    method DeleteConversation(id: int)
      requires Valid()
      modifies this
      ensures Valid()
      ensures conversations == ConversationsExcept(old(conversations), id)
      ensures messages == MessagesNotOf(old(messages), id)
      ensures nextConversationId == old(nextConversationId) && nextMessageId == old(nextMessageId)
    {
      ConversationsExceptIncreasing(conversations, id);
      MessagesNotOfIncreasing(messages, id);
      conversations := ConversationsExcept(conversations, id);
      messages := MessagesNotOf(messages, id);
      forall m | m in messages ensures FindConversation(conversations, m.conversationId).Some? {
        var j := FindConversation(old(conversations), m.conversationId).value;
        var c := old(conversations)[j];
        assert c in conversations;
        var i :| 0 <= i < |conversations| && conversations[i] == c;
        assert conversations[i].id == m.conversationId;
      }
    }
  }
}

=== FILE: data_layer.dfy ===
/** `CustomDataLayer`: the thread history browser's view of the store. Each SQL
    query is a filter, sort and limit over the tables; the result dictionaries
    are the `Thread`, `Step` and `Page` values below. `createdAt` is kept as the
    stored timestamp, not its ISO rendering. */
module DataLayer {
  import opened Wrappers
  import opened Text
  import opened Crud
  import Sorting

  datatype Step = Step(id: string, stepType: string, content: string, createdAt: nat)

  datatype Thread = Thread(
    id: string, createdAt: nat, name: string, userId: string,
    steps: seq<Step>, metadata: map<string, string>)

  datatype Page = Page(data: seq<Thread>, hasMore: bool)

  /** `int(thread_id)`, raising `ValueError` when it is not a number. */
  function ParseId(text: string): (r: Result<int, Error>)
    ensures r.Success? <==> ParseInt(text).Some?
    ensures r.Success? ==> r.value == ParseInt(text).value
    ensures r.Failure? ==> r.error == ValueError(text)
  {
    match ParseInt(text)
    case None => Failure(ValueError(text))
    case Some(n) => Success(n)
  }

  /** One message as a step of the thread view. */
  function StepOf(m: Message): (s: Step)
    ensures s.stepType == "user_message" <==> m.role == "user"
    ensures s.stepType == "assistant_message" <==> m.role != "user"
    ensures s.content == m.content && s.createdAt == m.createdAt
    ensures ParseInt(s.id) == Some(m.id)
  {
    ParseNatToString(m.id);
    Step(NatToString(m.id), if m.role == "user" then "user_message" else "assistant_message", m.content, m.createdAt)
  }

  /** `t` is the detail view of conversation `c` whose history is `h`. */
  ghost predicate IsDetailOf(t: Thread, c: Conversation, h: seq<Message>) {
    t.id == NatToString(c.id) && t.createdAt == c.createdAt && t.name == c.title &&
    t.userId == NatToString(c.userId) && t.metadata == map[] &&
    |t.steps| == |h| && forall i :: 0 <= i < |h| ==> t.steps[i] == StepOf(h[i])
  }

  /** The loop of `get_thread`: one step per message, in order. */
  method StepsOf(dbMessages: seq<Message>) returns (steps: seq<Step>)
    ensures |steps| == |dbMessages|
    ensures forall i :: 0 <= i < |dbMessages| ==> steps[i] == StepOf(dbMessages[i])
  {
    steps := [];
    for i := 0 to |dbMessages|
      invariant |steps| == i
      invariant forall j :: 0 <= j < i ==> steps[j] == StepOf(dbMessages[j])
    {
      steps := steps + [StepOf(dbMessages[i])];
    }
  }

  /** `get_thread`. */
  method GetThread(db: Store, threadId: string) returns (r: Result<Option<Thread>, Error>)
    ensures ParseInt(threadId).None? ==> r == Failure(ValueError(threadId))
    ensures ParseInt(threadId).Some? ==>
      r.Success? && (FindConversation(db.conversations, ParseInt(threadId).value).None? <==> r.value.None?)
    ensures r.Success? && r.value.Some? ==>
      var k := FindConversation(db.conversations, ParseInt(threadId).value).value;
      IsDetailOf(r.value.value, db.conversations[k], History(db.messages, db.conversations[k].id))
  {
    var id :- ParseId(threadId);
    var k := FindConversation(db.conversations, id);
    if k.None? {
      return Success(None);
    }
    var conversation := db.conversations[k.value];
    var steps := StepsOf(History(db.messages, id));
    r := Success(Some(Thread(NatToString(conversation.id), conversation.createdAt, conversation.title,
                             NatToString(conversation.userId), steps, map[])));
  }

  /** The conversations of user `u`, in table order. */
  function OwnedBy(cs: seq<Conversation>, u: int): (r: seq<Conversation>)
    ensures forall c :: c in r <==> c in cs && c.userId == u
    ensures forall c :: multiset(r)[c] == if c.userId == u then multiset(cs)[c] else 0
    decreases |cs|
  {
    if cs == [] then []
    else
      var rest := OwnedBy(cs[1..], u);
      assert cs == [cs[0]] + cs[1..];
      assert multiset(cs) == multiset{cs[0]} + multiset(cs[1..]);
      if cs[0].userId == u then [cs[0]] + rest else rest
  }

  /** Sort key for `ORDER BY created_at DESC`. */
  function NewestFirstKey(c: Conversation): int {
    0 - c.createdAt as int
  }

  /** User `u`'s conversations, newest first. */
  function NewestFirst(cs: seq<Conversation>, u: int): (r: seq<Conversation>)
    ensures |r| == |OwnedBy(cs, u)|
    ensures multiset(r) == multiset(OwnedBy(cs, u))
    ensures forall c :: c in r ==> c in cs && c.userId == u
    ensures forall i, j :: 0 <= i < j < |r| ==> r[i].createdAt >= r[j].createdAt
  {
    var all := Sorting.Sort(OwnedBy(cs, u), NewestFirstKey);
    assert forall c :: c in all ==> c in OwnedBy(cs, u) by {
      forall c | c in all ensures c in OwnedBy(cs, u) {
        assert c in multiset(all);
      }
    }
    assert forall i, j :: 0 <= i < j < |all| ==> NewestFirstKey(all[i]) <= NewestFirstKey(all[j]);
    assert |all| == |multiset(all)|;
    all
  }

  lemma PrefixSubMultiset<T>(s: seq<T>, k: nat)
    requires k <= |s|
    ensures multiset(s[..k]) <= multiset(s)
  {
    assert s == s[..k] + s[k..];
  }

  /** The rows of the list query: user `u`'s conversations, newest first,
      `LIMIT limit`. */
  function Newest(cs: seq<Conversation>, u: int, limit: nat): (r: seq<Conversation>)
    ensures |r| == if limit < |OwnedBy(cs, u)| then limit else |OwnedBy(cs, u)|
    ensures forall c :: c in r ==> c in cs && c.userId == u
    ensures forall i, j :: 0 <= i < j < |r| ==> r[i].createdAt >= r[j].createdAt
    ensures multiset(r) <= multiset(OwnedBy(cs, u))
    ensures limit >= |OwnedBy(cs, u)| ==> multiset(r) == multiset(OwnedBy(cs, u))
  {
    var all := NewestFirst(cs, u);
    if limit < |all| then
      assert forall c :: c in all[..limit] ==> c in all;
      PrefixSubMultiset(all, limit);
      all[..limit]
    else all
  }

  lemma NewestIsPrefix(cs: seq<Conversation>, u: int, limit: nat)
    ensures Newest(cs, u, limit) == NewestFirst(cs, u)[..|Newest(cs, u, limit)|]
  {
  }

  lemma OwnedIsListed(cs: seq<Conversation>, u: int, c: Conversation)
    requires c in OwnedBy(cs, u)
    ensures c in NewestFirst(cs, u)
  {
    assert c in multiset(OwnedBy(cs, u));
  }

  /** Every owned conversation the limit leaves out is no newer than any that
      the page shows. */
  lemma NewestIsTopK(cs: seq<Conversation>, u: int, limit: nat, c: Conversation)
    requires c in OwnedBy(cs, u)
    ensures c in Newest(cs, u, limit) ||
      forall i :: 0 <= i < |Newest(cs, u, limit)| ==> Newest(cs, u, limit)[i].createdAt >= c.createdAt
  {
    var all := NewestFirst(cs, u);
    var r := Newest(cs, u, limit);
    NewestIsPrefix(cs, u, limit);
    OwnedIsListed(cs, u, c);
    var j :| 0 <= j < |all| && all[j] == c;
    if j < |r| {
      assert r[j] == c;
    } else {
      forall i | 0 <= i < |r| ensures r[i].createdAt >= c.createdAt {
        assert r[i] == all[i];
      }
    }
  }

  /** One conversation as an entry of the list view: no steps. */
  function Summary(c: Conversation): (t: Thread)
    ensures t.steps == [] && t.metadata == map[]
    ensures ParseInt(t.id) == Some(c.id) && ParseInt(t.userId) == Some(c.userId)
    ensures t.name == c.title && t.createdAt == c.createdAt
  {
    ParseNatToString(c.id);
    ParseNatToString(c.userId);
    Thread(NatToString(c.id), c.createdAt, c.title, NatToString(c.userId), [], map[])
  }

  /** The loop of `list_threads`: one list entry per selected conversation. */
  method PageOf(conversations: seq<Conversation>) returns (page: Page)
    ensures !page.hasMore
    ensures |page.data| == |conversations|
    ensures forall i :: 0 <= i < |conversations| ==> page.data[i] == Summary(conversations[i])
  {
    var threads: seq<Thread> := [];
    for i := 0 to |conversations|
      invariant |threads| == i
      invariant forall j :: 0 <= j < i ==> threads[j] == Summary(conversations[j])
    {
      threads := threads + [Summary(conversations[i])];
    }
    page := Page(threads, false);
  }

  /** `list_threads`: `filterUserId` is `filter.userId` and `first` is
      `pagination.first`. */
  method ListThreads(db: Store, first: nat, filterUserId: Option<string>) returns (r: Result<Page, Error>)
    ensures (filterUserId.None? || filterUserId.value == "") ==> r == Success(Page([], false))
    ensures filterUserId.Some? && filterUserId.value != "" && ParseInt(filterUserId.value).None? ==>
      r == Failure(ValueError(filterUserId.value))
    ensures r.Success? ==> !r.value.hasMore && |r.value.data| <= first
    ensures filterUserId.Some? && ParseInt(filterUserId.value).Some? ==>
      var rows := Newest(db.conversations, ParseInt(filterUserId.value).value, first);
      r.Success? && |r.value.data| == |rows| &&
      forall i :: 0 <= i < |rows| ==> r.value.data[i] == Summary(rows[i])
  {
    if filterUserId.None? || filterUserId.value == "" {
      return Success(Page([], false));
    }
    var userId :- ParseId(filterUserId.value);
    var page := PageOf(Newest(db.conversations, userId, first));
    r := Success(page);
  }

  /** `update_thread`: renames only when `name` is given and non-empty; the id
      is parsed only then. */
  method UpdateThread(db: Store, threadId: string, name: Option<string>) returns (r: Result<(), Error>)
    requires db.Valid()
    modifies db
    ensures db.Valid()
    ensures db.messages == old(db.messages)
    ensures db.nextConversationId == old(db.nextConversationId) && db.nextMessageId == old(db.nextMessageId)
    ensures name.None? || name.value == "" ==> r.Success? && db.conversations == old(db.conversations)
    ensures name.Some? && name.value != "" && ParseInt(threadId).None? ==>
      r == Failure(ValueError(threadId)) && db.conversations == old(db.conversations)
    ensures name.Some? && name.value != "" && ParseInt(threadId).Some? ==>
      r.Success? && db.conversations == Renamed(old(db.conversations), ParseInt(threadId).value, name.value)
  {
    if name.Some? && name.value != "" {
      var id :- ParseId(threadId);
      db.SetTitle(id, name.value);
    }
    r := Success(());
  }

  /** `delete_thread`. */
  method DeleteThread(db: Store, threadId: string) returns (r: Result<(), Error>)
    requires db.Valid()
    modifies db
    ensures db.Valid()
    ensures ParseInt(threadId).None? ==>
      r == Failure(ValueError(threadId)) && db.conversations == old(db.conversations) && db.messages == old(db.messages)
    ensures ParseInt(threadId).Some? ==>
      r.Success? &&
      db.conversations == ConversationsExcept(old(db.conversations), ParseInt(threadId).value) &&
      db.messages == MessagesNotOf(old(db.messages), ParseInt(threadId).value)
  {
    var id :- ParseId(threadId);
    db.DeleteConversation(id);
    r := Success(());
  }

  /** `get_thread_author`: the owner's id as text, or "" when the thread is absent. */
  function ThreadAuthor(cs: seq<Conversation>, threadId: string): (r: Result<string, Error>)
    ensures ParseInt(threadId).None? <==> r.Failure?
    ensures r.Success? ==>
      (r.value == "" <==> FindConversation(cs, ParseInt(threadId).value).None?)
    ensures r.Success? && FindConversation(cs, ParseInt(threadId).value).Some? ==>
      r.value == NatToString(cs[FindConversation(cs, ParseInt(threadId).value).value].userId)
  {
    var id :- ParseId(threadId);
    match FindConversation(cs, id)
    case None => Success("")
    case Some(k) => Success(NatToString(cs[k].userId))
  }

  /** After `delete_thread` the thread is gone: the detail view finds nothing
      and the author lookup answers "". */
  lemma DeletedThreadIsAbsent(cs: seq<Conversation>, threadId: string)
    requires ParseInt(threadId).Some?
    ensures FindConversation(ConversationsExcept(cs, ParseInt(threadId).value), ParseInt(threadId).value).None?
    ensures ThreadAuthor(ConversationsExcept(cs, ParseInt(threadId).value), threadId) == Success("")
  {
  }
}

=== FILE: llm_service.dfy ===
/** `LLMService`: the closed provider table and the fragment stream of one
    chat completion. The upstream stream is an input: the `delta.content` of
    each chunk in arrival order, and an optional point at which the call or
    the iteration raises. */
module LlmService {
  import opened Wrappers
  import opened Text

  /** The client a provider selects (its endpoint and key are not modelled). */
  datatype Backend = OllamaBackend | OpenRouterBackend | OpenAIBackend
  {
    /** The provider name that selects this client. */
    function Provider(): string {
      match this
      case OllamaBackend => "ollama"
      case OpenRouterBackend => "openrouter"
      case OpenAIBackend => "openai"
    }
  }

  datatype ChatMessage = ChatMessage(role: string, content: string)

  datatype GatewayError = UnknownProvider(text: string)

  /** The stream raises after delivering `after` chunks (0: the call itself failed). */
  datatype StreamFailure = StreamFailure(after: nat, detail: string)

  /** What one call sends upstream and what it yields. */
  datatype Completion = Completion(
    backend: Backend, model: string, messages: seq<ChatMessage>, fragments: seq<string>)

  const SystemMessage: ChatMessage := ChatMessage("system", "Eres un asistente útil y amable.")

  /** The supported providers and their default models. */
  const DefaultModels: map<string, string> :=
    map["ollama" := "llama3", "openrouter" := "openai/gpt-3.5-turbo", "openai" := "gpt-3.5-turbo"]

  /** `_get_client_and_model`: dispatch on the provider name; any other name raises. */
  function GetClientAndModel(provider: string): (r: Result<(Backend, string), GatewayError>)
    ensures r.Success? <==> provider in DefaultModels
    ensures r.Success? ==> r.value.1 == DefaultModels[provider]
    ensures r.Success? ==> r.value.0.Provider() == provider
    ensures r.Failure? ==> r.error == UnknownProvider("Proveedor desconocido: " + provider)
  {
    if provider == "ollama" then Success((OllamaBackend, "llama3"))
    else if provider == "openrouter" then Success((OpenRouterBackend, "openai/gpt-3.5-turbo"))
    else if provider == "openai" then Success((OpenAIBackend, "gpt-3.5-turbo"))
    else Failure(UnknownProvider("Proveedor desconocido: " + provider))
  }

  /** The chunks the stream delivers before it ends or raises. */
  function Delivered(deltas: seq<Option<string>>, failure: Option<StreamFailure>): (r: seq<Option<string>>)
    ensures r <= deltas
    ensures failure.None? ==> r == deltas
    ensures failure.Some? ==> |r| == if failure.value.after < |deltas| then failure.value.after else |deltas|
  {
    if failure.Some? && failure.value.after < |deltas| then deltas[..failure.value.after] else deltas
  }

  /** The chunk contents that are neither `None` nor empty, in arrival order. */
  function NonEmptyDeltas(deltas: seq<Option<string>>): (r: seq<string>)
    ensures forall s :: s in r ==> s != "" && Some(s) in deltas
    ensures forall i :: 0 <= i < |deltas| && deltas[i].Some? && deltas[i].value != "" ==> deltas[i].value in r
    ensures |r| <= |deltas|
    decreases |deltas|
  {
    if deltas == [] then []
    else
      var init := deltas[..|deltas| - 1];
      var last := deltas[|deltas| - 1];
      var rest := NonEmptyDeltas(init);
      assert forall s :: Some(s) in init ==> Some(s) in deltas;
      assert forall i :: 0 <= i < |init| ==> init[i] == deltas[i];
      if last.Some? && last.value != "" then rest + [last.value] else rest
  }

  const ErrorPrefix: string := "\n\n**Error al conectar con "

  /** The error fragment that ends a stream that raised: it names the provider
      and ends with the exception's text. */
  function ErrorFragment(provider: string, detail: string): (s: string)
    ensures |s| == |ErrorPrefix| + |provider| + 4 + |detail|
    ensures s[..|ErrorPrefix|] == ErrorPrefix
    ensures s[|ErrorPrefix|..|ErrorPrefix| + |provider|] == provider
    ensures s[|s| - |detail|..] == detail
  {
    var s := ErrorPrefix + provider + ":** " + detail;
    assert s == ErrorPrefix + (provider + (":** " + detail));
    s
  }

  /** The fragments `stream_response` yields for a stream that was opened. */
  function Fragments(deltas: seq<Option<string>>, failure: Option<StreamFailure>, provider: string): seq<string> {
    NonEmptyDeltas(Delivered(deltas, failure)) +
    (if failure.Some? then [ErrorFragment(provider, failure.value.detail)] else [])
  }

  /** The whole text of the chunks: every present content, empty or not. */
  function DeltaText(deltas: seq<Option<string>>): string
    decreases |deltas|
  {
    if deltas == [] then ""
    else
      var last := deltas[|deltas| - 1];
      DeltaText(deltas[..|deltas| - 1]) + (if last.Some? then last.value else "")
  }

  /** `stream_response`. An unknown provider raises before the `try`, so it is a
      `Failure`; a failing upstream never is. */
  method StreamResponse(
    history: seq<ChatMessage>, provider: string, specificModel: Option<string>,
    deltas: seq<Option<string>>, failure: Option<StreamFailure>)
    returns (r: Result<Completion, GatewayError>)
    ensures r.Failure? <==> provider !in DefaultModels
    ensures r.Failure? ==> r.error == UnknownProvider("Proveedor desconocido: " + provider)
    ensures r.Success? ==>
      r.value.model == (if specificModel.Some? && specificModel.value != "" then specificModel.value
                        else DefaultModels[provider])
    ensures r.Success? ==> r.value.backend.Provider() == provider
    ensures r.Success? ==> r.value.messages == [SystemMessage] + history
    ensures r.Success? ==> r.value.fragments == Fragments(deltas, failure, provider)
  {
    var clientAndModel :- GetClientAndModel(provider);
    var (client, defaultModel) := clientAndModel;
    var model := if specificModel.Some? && specificModel.value != "" then specificModel.value else defaultModel;
    var fullMessages := [SystemMessage] + history;
    var delivered := Delivered(deltas, failure);
    var fragments: seq<string> := [];
    for i := 0 to |delivered|
      invariant fragments == NonEmptyDeltas(delivered[..i])
    {
      assert delivered[..i + 1][..i] == delivered[..i];
      var chunk := delivered[i];
      if chunk.Some? && chunk.value != "" {
        fragments := fragments + [chunk.value];
      }
    }
    assert delivered[..|delivered|] == delivered;
    if failure.Some? {
      fragments := fragments + [ErrorFragment(provider, failure.value.detail)];
    }
    r := Success(Completion(client, model, fullMessages, fragments));
  }

  /** Filtering keeps arrival order: the fragments of two consecutive runs of
      chunks are the fragments of the first followed by those of the second. */
  lemma {:induction false} NonEmptyDeltasAppend(a: seq<Option<string>>, b: seq<Option<string>>)
    ensures NonEmptyDeltas(a + b) == NonEmptyDeltas(a) + NonEmptyDeltas(b)
    decreases |b|
  {
    if b == [] {
      assert a + b == a;
    } else {
      var b' := b[..|b| - 1];
      assert (a + b)[..|a + b| - 1] == a + b';
      assert (a + b)[|a + b| - 1] == b[|b| - 1];
      NonEmptyDeltasAppend(a, b');
    }
  }

  /** Dropping empty and missing deltas loses no text: the fragments joined
      together are the full text of the stream. */
  lemma {:induction false} ConcatNonEmptyDeltas(deltas: seq<Option<string>>)
    ensures Concat(NonEmptyDeltas(deltas)) == DeltaText(deltas)
    decreases |deltas|
  {
    if deltas != [] {
      var init := deltas[..|deltas| - 1];
      var last := deltas[|deltas| - 1];
      ConcatNonEmptyDeltas(init);
      if last.Some? && last.value != "" {
        ConcatAppend(NonEmptyDeltas(init), [last.value]);
        assert Concat([last.value]) == last.value by {
          assert [last.value][..0] == [];
        }
      }
    }
  }

  /** The text a completed stream leaves, once its fragments are joined: all of
      the delivered text, followed by the error text when the stream raised. */
  lemma StreamText(deltas: seq<Option<string>>, failure: Option<StreamFailure>, provider: string)
    ensures Concat(Fragments(deltas, failure, provider)) ==
      DeltaText(Delivered(deltas, failure)) +
      (if failure.Some? then ErrorFragment(provider, failure.value.detail) else "")
  {
    var delivered := Delivered(deltas, failure);
    ConcatNonEmptyDeltas(delivered);
    if failure.Some? {
      var e := ErrorFragment(provider, failure.value.detail);
      ConcatAppend(NonEmptyDeltas(delivered), [e]);
      assert [e][..0] == [];
    } else {
      assert Fragments(deltas, failure, provider) == NonEmptyDeltas(delivered);
    }
  }
}

=== FILE: sorting.dfy ===
/** The `ORDER BY key` of the modelled queries: a stable insertion sort on a
    key. SQL leaves the order of rows with equal keys unspecified; the model
    keeps them in table order. */
module Sorting {

  ghost predicate SortedBy<T>(s: seq<T>, key: T -> int) {
    forall i, j :: 0 <= i < j < |s| ==> key(s[i]) <= key(s[j])
  }

  /** Puts `x` before the first element whose key is not smaller than its own. */
  function Insert<T>(x: T, s: seq<T>, key: T -> int): (r: seq<T>)
    ensures multiset(r) == multiset(s) + multiset{x}
    ensures forall y :: y in r ==> y == x || y in s
    decreases |s|
  {
    if s == [] then [x]
    else if key(x) <= key(s[0]) then [x] + s
    else
      assert s == [s[0]] + s[1..];
      [s[0]] + Insert(x, s[1..], key)
  }

  lemma {:induction false} InsertSorted<T>(x: T, s: seq<T>, key: T -> int)
    requires SortedBy(s, key)
    ensures SortedBy(Insert(x, s, key), key)
    decreases |s|
  {
    var r := Insert(x, s, key);
    if s == [] {
    } else if key(x) <= key(s[0]) {
      assert r == [x] + s;
      forall i, j | 0 <= i < j < |r| ensures key(r[i]) <= key(r[j]) {
        if i == 0 {
          assert r[j] == s[j - 1];
        } else {
          assert r[i] == s[i - 1] && r[j] == s[j - 1];
        }
      }
    } else {
      var rest := Insert(x, s[1..], key);
      InsertSorted(x, s[1..], key);
      assert r == [s[0]] + rest;
      forall j | 0 <= j < |rest| ensures key(s[0]) <= key(rest[j]) {
        var y := rest[j];
        assert y in rest;
        if y != x {
          assert y in s[1..];
        }
      }
      forall i, j | 0 <= i < j < |r| ensures key(r[i]) <= key(r[j]) {
        if i == 0 {
          assert r[j] == rest[j - 1];
        } else {
          assert r[i] == rest[i - 1] && r[j] == rest[j - 1];
        }
      }
    }
  }

  function Sort<T>(s: seq<T>, key: T -> int): (r: seq<T>)
    ensures multiset(r) == multiset(s)
    ensures SortedBy(r, key)
    decreases |s|
  {
    if s == [] then []
    else
      assert s == [s[0]] + s[1..];
      InsertSorted(s[0], Sort(s[1..], key), key);
      Insert(s[0], Sort(s[1..], key), key)
  }

  /** A sequence already in key order comes back unchanged: equal keys keep
      their relative order. */
  lemma {:induction false} SortOfSorted<T>(s: seq<T>, key: T -> int)
    requires SortedBy(s, key)
    ensures Sort(s, key) == s
    decreases |s|
  {
    if s != [] {
      SortOfSorted(s[1..], key);
      assert s == [s[0]] + s[1..];
    }
  }
}

=== FILE: text.dfy ===
/** Python's `str(n)` for the non-negative integer ids of the store, `int(s)` on
    the thread ids the data layer receives, and string accumulation. */
module Text {
  import opened Wrappers

  predicate IsDigit(ch: char) {
    '0' <= ch <= '9'
  }

  predicate AllDigits(s: string) {
    forall i :: 0 <= i < |s| ==> IsDigit(s[i])
  }

  function DigitChar(d: nat): (ch: char)
    requires d < 10
    ensures IsDigit(ch) && DigitValue(ch) == d
  {
    ('0' as int + d) as char
  }

  function DigitValue(ch: char): (d: nat)
    requires IsDigit(ch)
    ensures d < 10
  {
    ch as int - '0' as int
  }

  /** `str(n)`: the shortest decimal spelling of `n`. */
  function NatToString(n: nat): (s: string)
    ensures |s| >= 1 && AllDigits(s)
    ensures |s| > 1 ==> s[0] != '0'
    decreases n
  {
    if n < 10 then [DigitChar(n)] else NatToString(n / 10) + [DigitChar(n % 10)]
  }

  /** The value of a string of decimal digits, read left to right. */
  function DigitsValue(s: string): nat
    requires AllDigits(s)
    decreases |s|
  {
    if s == [] then 0 else DigitsValue(s[..|s| - 1]) * 10 + DigitValue(s[|s| - 1])
  }

  /** `int(s)`: an optional sign followed by at least one decimal digit;
      anything else is the `ValueError` case, `None` here. */
  function ParseInt(s: string): (r: Option<int>)
    ensures r.Some? ==> |s| >= 1 && IsDigit(s[|s| - 1])
    ensures r.Some? ==> forall i :: 1 <= i < |s| ==> IsDigit(s[i])
    ensures r.Some? ==> IsDigit(s[0]) || ((s[0] == '-' || s[0] == '+') && |s| >= 2)
    ensures r.Some? && r.value < 0 ==> s[0] == '-'
  {
    if |s| > 0 && (s[0] == '-' || s[0] == '+') then
      if |s| > 1 && AllDigits(s[1..]) then
        var v: int := DigitsValue(s[1..]);
        Some(if s[0] == '-' then -v else v)
      else None
    else if |s| > 0 && AllDigits(s) then Some(DigitsValue(s))
    else None
  }

  lemma {:induction false} DigitsValueOfNatToString(n: nat)
    ensures DigitsValue(NatToString(n)) == n
    decreases n
  {
    var s := NatToString(n);
    if n < 10 {
      assert s[..|s| - 1] == [];
    } else {
      DigitsValueOfNatToString(n / 10);
      assert s[..|s| - 1] == NatToString(n / 10);
    }
  }

  /** `int(str(n)) == n`: the id the data layer hands out parses back to itself. */
  lemma ParseNatToString(n: nat)
    ensures ParseInt(NatToString(n)) == Some(n)
  {
    DigitsValueOfNatToString(n);
  }

  /** The text `s += t` leaves after adding every element of `ts` in order. */
  function Concat(ts: seq<string>): string {
    if ts == [] then "" else Concat(ts[..|ts| - 1]) + ts[|ts| - 1]
  }

  lemma {:induction false} ConcatAppend(a: seq<string>, b: seq<string>)
    ensures Concat(a + b) == Concat(a) + Concat(b)
    decreases |b|
  {
    if b == [] {
      assert a + b == a;
    } else {
      var b' := b[..|b| - 1];
      assert (a + b)[..|a + b| - 1] == a + b';
      ConcatAppend(a, b');
    }
  }
}

=== FILE: wrappers.dfy ===
/** Option and Result: the absent value (Python's None) and the raised exception
    of the modelled code, as values. */
module Wrappers {

  datatype Option<+T> = None | Some(value: T)

  datatype Result<+T, +E> = Success(value: T) | Failure(error: E) {

    predicate IsFailure() {
      Failure?
    }

    function PropagateFailure<U>(): Result<U, E>
      requires Failure?
    {
      Failure(error)
    }

    function Extract(): T
      requires Success?
    {
      value
    }
  }

  /** The exceptions of the modelled code: `ValueError` from `int(s)` on a
      string that is not a number, and the foreign-key violation of an insert
      into `messages` naming no conversation. */
  datatype Error =
    | ValueError(text: string)
    | IntegrityError(conversationId: int)
}
